=== FILE: README.md ===
# Forum relevance matcher — a Dafny model

This project models `find_relevant_links` from the course Q&A service. The
function takes a question and a corpus of Discourse forum posts and returns
at most three links to relevant forum topics. It works in five steps:

1. It groups the posts into topics, keyed by the lower-cased title. Each
   topic takes its url from its first post.
2. It scores each topic with four signals:
   - a fuzzy title similarity;
   - a fuzzy similarity against the topic's space-joined, lower-cased content;
   - the overlap of the `\w+` keyword sets;
   - a hard-coded "ga5" boost.
3. It picks the first best-scoring post of each qualifying topic.
4. It builds a link text from the key, cut to 100 characters. The text
   continues with `" (see post #N)"` when the first best post scores above
   70 and the last `/`-piece `N` of its url is all digits.
5. It stops scanning after the third link.

Modules:

- `Wrappers` (wrappers.dfy): `Option`.
- `Text` (text.dfy): the string primitives, ASCII only.
  - `str.lower` is `Lower`. Two strings have the same lower-case form
    exactly when they agree up to ASCII case, position by position.
  - `re.findall(r'\w+', s)` as a set is `Tokens`. It is proved equal to the
    set of maximal word-character runs.
  - `in` on strings is `Contains`. It is proved equivalent to "occurs at
    some index".
  - `str.split('/')` and `sep.join(parts)` are `Split` and `Join`.
    Splitting is proved to round-trip through joining with `/`; the topic
    content is joined with a single space (main.py:86).
  - `s.split('/')[-1]` is `LastPiece`.
  - `str.isdigit` is `IsDigits`.
  - `s[:n]` is `Truncate`.
- `Forum` (forum.dfy): the `Post`, `Topic` and `Link` records and the
  grouping loop (`Group`). The grouping is proved against reference
  definitions: `Filter` gives the posts of a key in corpus order, and
  `FirstIndex` gives a key's first post.
- `Matcher` (matcher.dfy): the signals, the qualification rule, best-post
  selection, the link text, and the scan with its cap of three.
  - `FindRelevantLinks` is the loop with `break`, as written.
  - `Match` is the reference "first three qualifying topics".
- `MatcherProperties` (matcher.dfy): lemmas relating the scan, the links and
  the topics.
- `Scenarios` (scenarios.dfy): concrete corpora. They cover "Week 1" versus
  "week 1", an exact-title question, the GA5 example, and a non-numeric post
  url.

The similarity primitive `fuzz.partial_ratio` is a parameter
`sim: (string, string) -> Score`, where `Score` is the integers 0..100.
Only the scenario lemmas assume particular scores, each through a
`requires`; every other lemma holds for every `sim`. The corpus is an `Option<seq<Post>>`:
`None` stands for an absent corpus, a failed load, or a corpus without the
`discourse_posts` key. `FindRelevantLinks` answers `[]` for all three, as
main.py:63-64 does.

Behaviour of main.py that the model keeps as written:

- The link text starts with the lower-cased grouping key (main.py:72, 119),
  not the title as stored. The GA5 scenario's text is therefore
  "using gpt for ga5 (see post #3)".
- The post-number test is `str.isdigit` on the last `/`-piece
  (main.py:122-123), so an empty piece or a signed number is never cited.
- The "ga5" boost is the hard-coded test of main.py:94-95.
- The topic url is the url of the topic's first post (main.py:75). With
  Discourse-style urls it already ends in that post's number.

## Model

| member | source | states |
|---|---|---|
| Text.Lower | main.py:66 | lower-casing keeps the length, maps each ASCII upper-case letter to its lower-case partner (32 code points higher) and changes nothing else |
| Text.LowerEqual | main.py:72 | two strings have the same lower-case form exactly when they have the same length and agree up to ASCII case at every position |
| Text.TokensSpec | main.py:67 | a string is in the keyword set exactly when it is a maximal run of `\w` characters of the text |
| Text.TokenShape | main.py:90 | every keyword is non-empty, made of word characters, and occurs in the text |
| Text.ContainsSpec | main.py:94-95 | `pat in s` holds exactly when `pat` occurs in `s` at some index |
| Text.ContainsInJoin | main.py:86 | a pattern found in one post's content is found in the space-joined content |
| Text.Split | main.py:122 | `split('/')` yields at least one piece, no piece holds a `/`, and joining the pieces with `/` gives back the url |
| Text.LastPiece | main.py:122 | `split('/')[-1]` is the longest `/`-free suffix of the url: the whole url, or what follows its last `/` |
| Text.LastPieceAfterSep | main.py:122 | the last piece of `a + "/" + b` is `b` whenever `b` holds no `/` |
| Text.Truncate | main.py:119 | `s[:100]` is a prefix of `s` of length `min(100, len(s))` |
| Forum.IndexOfKey | main.py:73 | finds the topic with the given key, or reports that no topic has it |
| Forum.GroupSpec | main.py:69-78 | grouping yields distinct keys; each topic holds exactly its key's posts in corpus order, is non-empty, and takes the url of its first post; every post has a topic; topics come in order of each key's first post |
| Forum.PostHasTopic | main.py:71-78 | every post's lower-cased title is the key of some topic |
| Forum.TopicUrlIsFirstPosts | main.py:73-77 | a topic's url is the url of the first post, in corpus order, whose lower-cased title is the key |
| Forum.OneKeyOneTopic | main.py:69-78 | a corpus whose posts all share one key forms exactly one topic, holding all the posts in corpus order under the first post's url |
| Forum.SameKeySameTopic | main.py:72-78 | two posts whose titles are equal after lower-casing are in the same topic |
| Matcher.Measure | main.py:83-95 | the four signals of a topic: the title score, the content score over the space-joined lower-cased content, the keyword overlap, and the ga5 flag; OverlapWords and SpecialCodeQualifies state what the last two mean |
| Matcher.Qualifies | main.py:105-108 | the matching rule: title score > 75, or content score > 65, or keyword overlap >= 2, or the ga5 flag; RelevantSound and RelevantComplete tie it to the scan |
| Matcher.BestOf | main.py:111-117 | the chosen post is the first one with the maximal score, which is positive; no post is chosen exactly when every score is 0 |
| Matcher.PostNumber | main.py:120-123 | a post number is cited exactly when a best post exists, its score exceeds 70 and the last `/`-piece of its url is all digits; the number is that piece |
| Matcher.LinkText | main.py:119-124 | the text starts with the key cut to 100 characters; with no number it is exactly that; otherwise it continues with `" (see post #N)"` |
| Matcher.TopicLink | main.py:110-129 | the link of a qualifying topic: the topic url, with the text built from the first best post; TopicLinkText states its contents |
| Matcher.RelevantLinks | main.py:80-129 | the scan of all topics in order without the cap, appending the link of each qualifying topic; RelevantSound, RelevantComplete and RelevantConcat characterise it |
| Matcher.RelevantConcat | main.py:80-132 | scanning a concatenation of topic lists gives the concatenation of the links found |
| Matcher.CapReached | main.py:131-132 | once a prefix of the topics yields three links, later topics no longer change the result |
| Matcher.FindRelevantLinks | main.py:60-138 | no corpus gives no links; at most three links; the result is exactly the first three qualifying topics' links in topic order, so the same inputs always give the same output |
| MatcherProperties.RelevantSound | main.py:104-129 | every link of the scan comes from a topic meeting `title > 75 or content > 65 or overlap >= 2 or ga5 boost` |
| MatcherProperties.RelevantComplete | main.py:104-129 | every topic meeting that rule contributes its link to the scan (before the cap) |
| MatcherProperties.MatchLinksFromTopics | main.py:126-129 | every returned link is the link of a qualifying topic; its url is the url of the first post with that topic's key, and its text starts with that post's lower-cased title cut to 100 characters |
| MatcherProperties.MatchCap | main.py:126-132 | the result is a prefix of all qualifying links, of length at most 3 |
| MatcherProperties.MatchBelowCap | main.py:104-132 | when fewer than three links come back, every qualifying topic's link is among them |
| MatcherProperties.OverlapWords | main.py:89-91 | a word counts towards the overlap exactly when it is a `\w+` match of both the lower-cased question and the joined content |
| MatcherProperties.SpecialCodeQualifies | main.py:93-108 | a question mentioning "ga5" in any case makes every topic with a post mentioning "ga5" qualify, whatever the similarity scores |
| MatcherProperties.TopicLinkText | main.py:110-129 | the link url is the topic url; the text is the cut key, followed by `" (see post #N)"` exactly when the first best post scores above 70 and its url's last piece `N` is all digits |
| Scenarios.WeekOneTitlesShareTopic | main.py:69-78 | "Week 1" and "week 1" posts form one topic "week 1", with both posts in order and the first post's url |
| Scenarios.ExactTitleIsIncluded | main.py:69-108 | if `sim` scores a non-empty string against itself at 100, a corpus of one or more posts whose lower-cased titles all equal the lower-cased question forms one topic, and that topic's link is returned |
| Scenarios.GptForGa5 | main.py:60-138 | "which model for GA5?" against the topic "Using GPT for GA5" gives one link whose text is "using gpt for ga5 (see post #3)", provided its post scores above 70 |
| Scenarios.NonNumericPieceNotCited | main.py:120-124 | a best post scoring 90 at a url ending in "/abc" is not cited; the text is the cut key alone |

## Left out

- HTTP layer (FastAPI app, CORS, routes, request and response models, main.py:17-58 and 163-218): plumbing outside the matcher.
- The language-model answer, its prompt and the fallback text (main.py:172-206): a foreign network call.
- Loading `data.json` and all logging (main.py:13-15, 28-35, 98-102, 135-137): I/O. The corpus is an input value instead.
- The `/debug_match` endpoint (main.py:140-161): a diagnostic wrapper, and it reads the corpus differently from the matcher.
- The internals of `fuzz.partial_ratio`: a library routine. It is the parameter `sim`, and only its 0..100 range is known.
- The per-topic `try/except` (main.py:81, 134-135): modelled posts are well formed, so no topic raises. Posts whose title, content or url is not a string (for example JSON `null`) are not modelled. Neither is a post without a `url` that opens a topic: `post['url']` at main.py:75 runs only for the first post of a key, outside the `try`, and raises. A later post without a `url` is modelled, as url `""`, which is what `.get('url', '')` at main.py:122 reads.
- Unicode behaviour of `str.lower`, `\w` and `str.isdigit`: the model is ASCII only.
- scraper.py: network requests, cookie prompting, sleeping, date parsing and file writing. It is ingestion I/O, not part of this model.

=== FILE: forum.dfy ===
/** The forum data model and the grouping of a flat post list into topics
    (main.py:41-43 and main.py:69-78). */
module Forum {
  import opened Wrappers
  import opened Text

  /** One entry of the corpus' `discourse_posts` list. The title and the
      content are read with a default of "" (`post.get(key, '')`). A post
      that opens a topic must carry a url (it is read without a default,
      main.py:75); the url of any later post is read with a default of "",
      which is the url "" here. */
  datatype Post = Post(topicTitle: Option<string>, content: Option<string>, url: string)

  /** A group of posts sharing a lower-cased title. */
  datatype Topic = Topic(key: string, url: string, posts: seq<Post>)

  /** A result entry: the `Link` record of main.py:41-43. */
  datatype Link = Link(url: string, text: string)

  function TitleOf(p: Post): string {
    p.topicTitle.GetOr("")
  }

  function ContentOf(p: Post): string {
    p.content.GetOr("")
  }

  /** The grouping key: the post's title, lower-cased. */
  function KeyOf(p: Post): string {
    Lower(TitleOf(p))
  }

  // ---------------------------------------------------------------------
  // Reference definitions
  // ---------------------------------------------------------------------

  /** The posts of `ps` whose key is `k`, in corpus order. */
  function Filter(ps: seq<Post>, k: string): seq<Post>
  {
    if |ps| == 0 then []
    else Filter(ps[..|ps| - 1], k) + (if KeyOf(ps[|ps| - 1]) == k then [ps[|ps| - 1]] else [])
  }

  /** The index of the first post of `ps` whose key is `k`, or `|ps|` when
      there is none. */
  function FirstIndex(ps: seq<Post>, k: string): (f: nat)
    ensures f <= |ps|
    ensures forall j :: 0 <= j < f ==> KeyOf(ps[j]) != k
    ensures f < |ps| ==> KeyOf(ps[f]) == k
  {
    if |ps| == 0 then 0
    else if KeyOf(ps[0]) == k then 0
    else 1 + FirstIndex(ps[1..], k)
  }

  /** Topic keys are pairwise distinct. */
  ghost predicate KeysDistinct(ts: seq<Topic>) {
    forall i, j :: 0 <= i < j < |ts| ==> ts[i].key != ts[j].key
  }

  /** Each topic holds exactly the posts of its key, in corpus order, and
      takes its url from the first of them. */
  ghost predicate PostsFiltered(ts: seq<Topic>, ps: seq<Post>) {
    forall i :: 0 <= i < |ts| ==>
      && ts[i].posts == Filter(ps, ts[i].key)
      && |ts[i].posts| > 0
      && ts[i].url == ts[i].posts[0].url
  }

  /** Every post has a topic. */
  ghost predicate Covers(ts: seq<Topic>, ps: seq<Post>) {
    forall q :: q in ps ==> exists i :: 0 <= i < |ts| && ts[i].key == KeyOf(q)
  }

  /** Topics come in the order of the first post of each key. */
  ghost predicate InFirstOrder(ts: seq<Topic>, ps: seq<Post>) {
    forall i, j :: 0 <= i < j < |ts| ==> FirstIndex(ps, ts[i].key) < FirstIndex(ps, ts[j].key)
  }

  /** The invariant of the grouping loop: `ts` groups the posts `ps`. */
  ghost predicate GroupedBy(ts: seq<Topic>, ps: seq<Post>) {
    KeysDistinct(ts) && PostsFiltered(ts, ps) && Covers(ts, ps) && InFirstOrder(ts, ps)
  }

  // ---------------------------------------------------------------------
  // The grouping loop
  // ---------------------------------------------------------------------

  /** The position of the topic keyed `k`, if any. */
  function IndexOfKey(ts: seq<Topic>, k: string): (r: Option<nat>)
    ensures r.Some? ==> r.value < |ts| && ts[r.value].key == k
    ensures r.None? ==> forall i :: 0 <= i < |ts| ==> ts[i].key != k
  {
    if |ts| == 0 then None
    else if ts[0].key == k then Some(0)
    else match IndexOfKey(ts[1..], k)
      case Some(i) => Some(i + 1)
      case None => None
  }

  /** One iteration of the grouping loop: open a topic for a new key, taking
      its url from this post, then append the post to its topic. */
  function AddPost(ts: seq<Topic>, p: Post): seq<Topic> {
    var k := KeyOf(p);
    match IndexOfKey(ts, k)
    case Some(i) => ts[i := ts[i].(posts := ts[i].posts + [p])]
    case None => ts + [Topic(k, p.url, [p])]
  }

  /** The topics of a post list, in dict insertion order. */
  function Group(ps: seq<Post>): seq<Topic> {
    if |ps| == 0 then [] else AddPost(Group(ps[..|ps| - 1]), ps[|ps| - 1])
  }

  // ---------------------------------------------------------------------
  // Lemmas
  // ---------------------------------------------------------------------

  lemma {:induction false} FilterKeys(ps: seq<Post>, k: string)
    ensures forall q :: q in Filter(ps, k) ==> q in ps && KeyOf(q) == k
    ensures forall q :: q in ps && KeyOf(q) == k ==> q in Filter(ps, k)
  {
    if |ps| > 0 {
      var init := ps[..|ps| - 1];
      FilterKeys(init, k);
      assert ps == init + [ps[|ps| - 1]];
    }
  }

  lemma {:induction false} FirstIndexAppend(ps: seq<Post>, p: Post, k: string)
    ensures FirstIndex(ps, k) < |ps| ==> FirstIndex(ps + [p], k) == FirstIndex(ps, k)
    ensures FirstIndex(ps, k) == |ps| && KeyOf(p) == k ==> FirstIndex(ps + [p], k) == |ps|
  {
    if |ps| > 0 {
      FirstIndexAppend(ps[1..], p, k);
      assert (ps + [p])[1..] == ps[1..] + [p];
    }
  }

  lemma {:induction false} FirstOfFilter(ps: seq<Post>, k: string)
    requires |Filter(ps, k)| > 0
    ensures FirstIndex(ps, k) < |ps| && Filter(ps, k)[0] == ps[FirstIndex(ps, k)]
    decreases |ps|
  {
    var init := ps[..|ps| - 1];
    var last := ps[|ps| - 1];
    assert Filter(ps, k) == Filter(init, k) + (if KeyOf(last) == k then [last] else []);
    if |Filter(init, k)| > 0 {
      FirstOfFilter(init, k);
      FirstIndexAppend(init, ps[|ps| - 1], k);
      assert ps == init + [ps[|ps| - 1]];
    } else {
      FilterKeys(init, k);
      forall j | 0 <= j < |init|
        ensures KeyOf(init[j]) != k
      {
        assert init[j] in init;
      }
      FirstIndexAppend(init, ps[|ps| - 1], k);
      assert ps == init + [ps[|ps| - 1]];
    }
  }

  lemma FilterAppend(ps: seq<Post>, p: Post, k: string)
    ensures Filter(ps + [p], k) == Filter(ps, k) + (if KeyOf(p) == k then [p] else [])
  {
  }

  /** Appending a post moves no existing key's first position. */
  lemma FirstStable(ts: seq<Topic>, ps: seq<Post>, p: Post)
    requires PostsFiltered(ts, ps)
    ensures forall i :: 0 <= i < |ts| ==> FirstIndex(ps, ts[i].key) < |ps|
    ensures forall i :: 0 <= i < |ts| ==> FirstIndex(ps + [p], ts[i].key) == FirstIndex(ps, ts[i].key)
  {
    forall i | 0 <= i < |ts|
      ensures FirstIndex(ps, ts[i].key) < |ps|
      ensures FirstIndex(ps + [p], ts[i].key) == FirstIndex(ps, ts[i].key)
    {
      FirstOfFilter(ps, ts[i].key);
      FirstIndexAppend(ps, p, ts[i].key);
    }
  }

  lemma {:induction false} FilterNone(ps: seq<Post>, k: string)
    requires forall j :: 0 <= j < |ps| ==> KeyOf(ps[j]) != k
    ensures Filter(ps, k) == []
  {
    if |ps| > 0 {
      FilterNone(ps[..|ps| - 1], k);
    }
  }

  /** A key without a topic has no posts. */
  lemma NoTopicNoPosts(ts: seq<Topic>, ps: seq<Post>, k: string)
    requires Covers(ts, ps)
    requires forall i :: 0 <= i < |ts| ==> ts[i].key != k
    ensures forall j :: 0 <= j < |ps| ==> KeyOf(ps[j]) != k
    ensures Filter(ps, k) == []
  {
  }

  /** Adding a post to a topic that already has its key keeps the invariant. */
  lemma AddToExisting(ts: seq<Topic>, ps: seq<Post>, p: Post, m: nat)
    requires GroupedBy(ts, ps)
    requires m < |ts| && ts[m].key == KeyOf(p)
    ensures GroupedBy(ts[m := ts[m].(posts := ts[m].posts + [p])], ps + [p])
  {
    var ps' := ps + [p];
    var ts' := ts[m := ts[m].(posts := ts[m].posts + [p])];
    assert |ts'| == |ts|;
    assert forall i :: 0 <= i < |ts| ==> ts'[i].key == ts[i].key;
    assert KeysDistinct(ts');
    forall i | 0 <= i < |ts'|
      ensures ts'[i].posts == Filter(ps', ts'[i].key)
      ensures |ts'[i].posts| > 0 && ts'[i].url == ts'[i].posts[0].url
    {
      FilterAppend(ps, p, ts[i].key);
    }
    assert PostsFiltered(ts', ps');
    forall q | q in ps'
      ensures exists i :: 0 <= i < |ts'| && ts'[i].key == KeyOf(q)
    {
      if q != p {
        assert q in ps;
        var i :| 0 <= i < |ts| && ts[i].key == KeyOf(q);
        assert ts'[i].key == KeyOf(q);
      } else {
        assert ts'[m].key == KeyOf(q);
      }
    }
    assert Covers(ts', ps');
    FirstStable(ts, ps, p);
    assert InFirstOrder(ts', ps');
  }

  /** Opening a topic for a key not seen before keeps the invariant. */
  lemma AddNew(ts: seq<Topic>, ps: seq<Post>, p: Post)
    requires GroupedBy(ts, ps)
    requires forall i :: 0 <= i < |ts| ==> ts[i].key != KeyOf(p)
    ensures GroupedBy(ts + [Topic(KeyOf(p), p.url, [p])], ps + [p])
  {
    AddNewFiltered(ts, ps, p);
    AddNewCovers(ts, ps, p);
    AddNewOrder(ts, ps, p);
  }

  lemma AddNewFiltered(ts: seq<Topic>, ps: seq<Post>, p: Post)
    requires PostsFiltered(ts, ps) && Covers(ts, ps)
    requires forall i :: 0 <= i < |ts| ==> ts[i].key != KeyOf(p)
    ensures PostsFiltered(ts + [Topic(KeyOf(p), p.url, [p])], ps + [p])
  {
    var ts' := ts + [Topic(KeyOf(p), p.url, [p])];
    NoTopicNoPosts(ts, ps, KeyOf(p));
    forall i | 0 <= i < |ts'|
      ensures ts'[i].posts == Filter(ps + [p], ts'[i].key)
    {
      FilterAppend(ps, p, ts'[i].key);
    }
  }

  lemma AddNewCovers(ts: seq<Topic>, ps: seq<Post>, p: Post)
    requires Covers(ts, ps)
    ensures Covers(ts + [Topic(KeyOf(p), p.url, [p])], ps + [p])
  {
    var ts' := ts + [Topic(KeyOf(p), p.url, [p])];
    forall q | q in ps + [p]
      ensures exists i :: 0 <= i < |ts'| && ts'[i].key == KeyOf(q)
    {
      if q != p {
        assert q in ps;
        var i :| 0 <= i < |ts| && ts[i].key == KeyOf(q);
        assert ts'[i].key == KeyOf(q);
      } else {
        assert ts'[|ts|].key == KeyOf(q);
      }
    }
  }

  lemma AddNewOrder(ts: seq<Topic>, ps: seq<Post>, p: Post)
    requires PostsFiltered(ts, ps) && Covers(ts, ps) && InFirstOrder(ts, ps)
    requires forall i :: 0 <= i < |ts| ==> ts[i].key != KeyOf(p)
    ensures InFirstOrder(ts + [Topic(KeyOf(p), p.url, [p])], ps + [p])
  {
    var k := KeyOf(p);
    NoTopicNoPosts(ts, ps, k);
    FirstStable(ts, ps, p);
    FirstIndexAppend(ps, p, k);
    assert FirstIndex(ps + [p], k) == |ps|;
  }

  /** The grouping loop establishes `GroupedBy`: posts with equal lower-cased
      titles share one topic, each topic keeps its posts in corpus order and
      takes its url from its first post, and topics come in order of first
      appearance. */
  lemma {:induction false} GroupSpec(ps: seq<Post>)
    ensures GroupedBy(Group(ps), ps)
    decreases |ps|
  {
    if |ps| > 0 {
      var init := ps[..|ps| - 1];
      var p := ps[|ps| - 1];
      GroupSpec(init);
      assert ps == init + [p];
      var ts := Group(init);
      match IndexOfKey(ts, KeyOf(p))
      case Some(m) => AddToExisting(ts, init, p, m);
      case None => AddNew(ts, init, p);
    }
  }

  /** Every post's key has a topic. */
  lemma PostHasTopic(ps: seq<Post>, j: int)
    requires 0 <= j < |ps|
    ensures exists i :: 0 <= i < |Group(ps)| && Group(ps)[i].key == KeyOf(ps[j])
  {
    GroupSpec(ps);
    assert ps[j] in ps;
  }

  /** A topic's url is the url of the first post, in corpus order, whose
      lower-cased title is the topic's key. */
  lemma TopicUrlIsFirstPosts(ps: seq<Post>, i: int)
    requires 0 <= i < |Group(ps)|
    ensures FirstIndex(ps, Group(ps)[i].key) < |ps|
    ensures Group(ps)[i].url == ps[FirstIndex(ps, Group(ps)[i].key)].url
  {
    GroupSpec(ps);
    FirstOfFilter(ps, Group(ps)[i].key);
  }

  /** Two posts whose titles are equal after lower-casing land in the same
      topic, whatever their original casing. */
  lemma SameKeySameTopic(ps: seq<Post>, p: Post, q: Post)
    requires p in ps && q in ps
    requires Lower(TitleOf(p)) == Lower(TitleOf(q))
    ensures exists i :: 0 <= i < |Group(ps)| && p in Group(ps)[i].posts && q in Group(ps)[i].posts
  {
    var ts := Group(ps);
    GroupSpec(ps);
    var i :| 0 <= i < |ts| && ts[i].key == KeyOf(p);
    FilterKeys(ps, KeyOf(p));
    assert p in ts[i].posts && q in ts[i].posts;
  }

  /** A corpus whose posts all share one key forms exactly one topic: all
      the posts in corpus order, under the first post's url. */
  lemma {:induction false} OneKeyOneTopic(ps: seq<Post>, k: string)
    requires |ps| > 0
    requires forall j :: 0 <= j < |ps| ==> KeyOf(ps[j]) == k
    ensures Group(ps) == [Topic(k, ps[0].url, ps)]
    decreases |ps|
  {
    var init := ps[..|ps| - 1];
    if |init| == 0 {
      assert ps == [ps[0]];
    } else {
      OneKeyOneTopic(init, k);
      assert ps == init + [ps[|ps| - 1]];
    }
  }
}

=== FILE: matcher.dfy ===
/** The relevance matcher `find_relevant_links` (main.py:60-138): scores
    every topic against the question, keeps the qualifying ones in topic
    order, picks a best post in each, formats a link, and stops at three. */
module Matcher {
  import opened Wrappers
  import opened Text
  import opened Forum

  /** A similarity score, 0 to 100. */
  type Score = x: int | 0 <= x <= 100

  /** The similarity primitive `fuzz.partial_ratio`. Its internals are not
      modelled: the matcher is parameterised by it and only its range is known. */
  type Similarity = (string, string) -> Score

  const TitleThreshold := 75
  const ContentThreshold := 65
  const KeywordThreshold := 2
  const PostThreshold := 70
  const TextLimit := 100
  const MaxLinks := 3
  /** The one hard-coded assignment code that boosts a topic. */
  const SpecialCode := "ga5"

  // ---------------------------------------------------------------------
  // Scoring a topic
  // ---------------------------------------------------------------------

  /** The four signals computed for a topic. */
  datatype Signals = Signals(titleScore: Score, contentScore: Score, overlap: nat, special: bool)

  /** The lower-cased contents of a topic's posts, in stored order. */
  function Contents(posts: seq<Post>): seq<string> {
    seq(|posts|, i requires 0 <= i < |posts| => Lower(ContentOf(posts[i])))
  }

  /** The lower-cased contents of all posts of a topic, joined with single
      spaces (main.py:86). */
  function AllContent(posts: seq<Post>): string {
    Join(Contents(posts), " ")
  }

  /** The signals of topic `t` for the lower-cased question `ql` whose
      keyword set is `qk`. */
  function Measure(sim: Similarity, ql: string, qk: set<string>, t: Topic): Signals {
    var all := AllContent(t.posts);
    Signals(
      sim(ql, t.key),
      sim(ql, all),
      |qk * Tokens(all)|,
      Contains(ql, SpecialCode) && (Contains(t.key, SpecialCode) || Contains(all, SpecialCode)))
  }

  /** The matching criteria. */
  predicate Qualifies(s: Signals) {
    || s.titleScore > TitleThreshold
    || s.contentScore > ContentThreshold
    || s.overlap >= KeywordThreshold
    || s.special
  }

  // ---------------------------------------------------------------------
  // Best post
  // ---------------------------------------------------------------------

  /** The outcome of the best-post loop: no post, or the chosen post's index
      and score. */
  datatype Best = NoBest | Best(index: nat, score: Score)

  /** `best_score` after the loop: 0 while no post has been chosen. */
  function BestScore(b: Best): int {
    if b.Best? then b.score else 0
  }

  /** Each post's similarity to the question, in stored order. */
  function PostScores(sim: Similarity, ql: string, posts: seq<Post>): seq<Score> {
    seq<Score>(|posts|, i requires 0 <= i < |posts| => sim(ql, Lower(ContentOf(posts[i]))))
  }

  /** Index `i` holds the maximum of `scores`, and no earlier index does. */
  ghost predicate IsFirstMax(scores: seq<Score>, i: int) {
    && 0 <= i < |scores|
    && (forall j :: 0 <= j < |scores| ==> scores[j] <= scores[i])
    && (forall j :: 0 <= j < i ==> scores[j] < scores[i])
  }

  /** The best-post loop: starting from score 0, a post replaces the current
      choice only when it scores strictly higher. The result is the first
      post with the maximal score, and there is none when every score is 0. */
  function BestOf(scores: seq<Score>): (b: Best)
    ensures b.Best? ==> IsFirstMax(scores, b.index) && scores[b.index] == b.score && b.score > 0
    ensures b.NoBest? <==> forall j :: 0 <= j < |scores| ==> scores[j] == 0
  {
    if |scores| == 0 then NoBest
    else
      var b := BestOf(scores[..|scores| - 1]);
      var s := scores[|scores| - 1];
      if s > BestScore(b) then Best(|scores| - 1, s) else b
  }

  // ---------------------------------------------------------------------
  // Link text
  // ---------------------------------------------------------------------

  /** The post number to cite: the last `/`-separated piece of the best
      post's url, when the best score exceeds the threshold and that piece
      is all digits. */
  function PostNumber(b: Best, posts: seq<Post>): (n: Option<string>)
    requires b.Best? ==> b.index < |posts|
    ensures n.Some? <==>
      b.Best? && b.score > PostThreshold && IsDigits(LastPiece(posts[b.index].url, '/'))
    ensures n.Some? ==> '/' !in n.value && n.value == LastPiece(posts[b.index].url, '/')
  {
    if b.Best? && b.score > PostThreshold then
      var piece := LastPiece(posts[b.index].url, '/');
      if IsDigits(piece) then Some(piece) else None
    else None
  }

  /** The link text: the key cut to 100 characters, then the optional
      `" (see post #N)"`. */
  function LinkText(key: string, number: Option<string>): (text: string)
    ensures Truncate(key, TextLimit) <= text
    ensures number.None? ==> text == Truncate(key, TextLimit)
    ensures number.Some? ==> text[|Truncate(key, TextLimit)|..] == " (see post #" + number.value + ")"
  {
    var head := Truncate(key, TextLimit);
    match number
    case None => head
    case Some(n) => head + " (see post #" + n + ")"
  }

  /** The link built for a qualifying topic. */
  function TopicLink(sim: Similarity, ql: string, t: Topic): Link {
    var best := BestOf(PostScores(sim, ql, t.posts));
    Link(t.url, LinkText(t.key, PostNumber(best, t.posts)))
  }

  // ---------------------------------------------------------------------
  // The scan
  // ---------------------------------------------------------------------

  /** The links of all qualifying topics, in topic order, with no cap. */
  function RelevantLinks(sim: Similarity, ql: string, qk: set<string>, ts: seq<Topic>): seq<Link> {
    if |ts| == 0 then []
    else
      (if Qualifies(Measure(sim, ql, qk, ts[0])) then [TopicLink(sim, ql, ts[0])] else [])
      + RelevantLinks(sim, ql, qk, ts[1..])
  }

  /** The reference result: the first three qualifying topics' links; no
      links at all when there is no corpus. */
  function Match(sim: Similarity, corpus: Option<seq<Post>>, question: string): seq<Link> {
    match corpus
    case None => []
    case Some(posts) =>
      var ql := Lower(question);
      Truncate(RelevantLinks(sim, ql, Tokens(ql), Group(posts)), MaxLinks)
  }

  /** The scan is compositional over a split of the topic list. */
  lemma {:induction false} RelevantConcat(sim: Similarity, ql: string, qk: set<string>, a: seq<Topic>, b: seq<Topic>)
    ensures RelevantLinks(sim, ql, qk, a + b) == RelevantLinks(sim, ql, qk, a) + RelevantLinks(sim, ql, qk, b)
    decreases |a|
  {
    if |a| == 0 {
      assert a + b == b;
    } else {
      var ab := a + b;
      assert ab[0] == a[0];
      assert ab[1..] == a[1..] + b;
      RelevantConcat(sim, ql, qk, a[1..], b);
      var head := if Qualifies(Measure(sim, ql, qk, a[0])) then [TopicLink(sim, ql, a[0])] else [];
      assert RelevantLinks(sim, ql, qk, ab) == head + RelevantLinks(sim, ql, qk, ab[1..]);
      assert RelevantLinks(sim, ql, qk, a) == head + RelevantLinks(sim, ql, qk, a[1..]);
    }
  }

  /** The scan over one more topic. */
  lemma RelevantStep(sim: Similarity, ql: string, qk: set<string>, ts: seq<Topic>, i: nat)
    requires i < |ts|
    ensures RelevantLinks(sim, ql, qk, ts[..i + 1]) == RelevantLinks(sim, ql, qk, ts[..i])
      + (if Qualifies(Measure(sim, ql, qk, ts[i])) then [TopicLink(sim, ql, ts[i])] else [])
  {
    assert ts[..i + 1] == ts[..i] + [ts[i]];
    RelevantConcat(sim, ql, qk, ts[..i], [ts[i]]);
    assert [ts[i]][1..] == [];
  }

  /** Once a prefix of the topics yields three links, the rest of the topics
      no longer matter. */
  lemma CapReached(sim: Similarity, ql: string, qk: set<string>, ts: seq<Topic>, i: nat)
    requires i <= |ts|
    requires |RelevantLinks(sim, ql, qk, ts[..i])| == MaxLinks
    ensures Truncate(RelevantLinks(sim, ql, qk, ts), MaxLinks) == RelevantLinks(sim, ql, qk, ts[..i])
  {
    assert ts == ts[..i] + ts[i..];
    RelevantConcat(sim, ql, qk, ts[..i], ts[i..]);
  }

  /** `find_relevant_links` as written: scan the topics in order, append the
      link of each qualifying one, and break once three are collected. The
      result is exactly the first three qualifying topics' links: later
      qualifying topics are never included, whatever they score. */
  method FindRelevantLinks(sim: Similarity, corpus: Option<seq<Post>>, question: string)
    returns (links: seq<Link>)
    ensures corpus.None? ==> links == []
    ensures |links| <= MaxLinks
    ensures links == Match(sim, corpus, question)
  {
    links := [];
    if corpus.None? {
      return;
    }
    var ql := Lower(question);
    var qk := Tokens(ql);
    var topics := Group(corpus.value);
    var i := 0;
    while i < |topics|
      invariant 0 <= i <= |topics|
      invariant links == RelevantLinks(sim, ql, qk, topics[..i])
      invariant |links| < MaxLinks
    {
      var t := topics[i];
      RelevantStep(sim, ql, qk, topics, i);
      if Qualifies(Measure(sim, ql, qk, t)) {
        links := links + [TopicLink(sim, ql, t)];
        if |links| >= MaxLinks {
          CapReached(sim, ql, qk, topics, i + 1);
          break;
        }
      }
      i := i + 1;
    }
    assert i == |topics| ==> topics[..i] == topics;
  }
}

/** Properties of the matcher: which topics produce links, what the links
    look like, and how the cap of three bites. */
module MatcherProperties {
  import opened Wrappers
  import opened Text
  import opened Forum
  import opened Matcher

  /** Every link of the scan is the link of a qualifying topic. */
  lemma {:induction false} RelevantSound(sim: Similarity, ql: string, qk: set<string>, ts: seq<Topic>, l: Link)
    requires l in RelevantLinks(sim, ql, qk, ts)
    ensures exists i :: 0 <= i < |ts| && Qualifies(Measure(sim, ql, qk, ts[i])) && l == TopicLink(sim, ql, ts[i])
    decreases |ts|
  {
    var head := if Qualifies(Measure(sim, ql, qk, ts[0])) then [TopicLink(sim, ql, ts[0])] else [];
    assert RelevantLinks(sim, ql, qk, ts) == head + RelevantLinks(sim, ql, qk, ts[1..]);
    if l !in RelevantLinks(sim, ql, qk, ts[1..]) {
      assert Qualifies(Measure(sim, ql, qk, ts[0])) && l == TopicLink(sim, ql, ts[0]);
    } else {
      RelevantSound(sim, ql, qk, ts[1..], l);
      var i :| 0 <= i < |ts[1..]| && Qualifies(Measure(sim, ql, qk, ts[1..][i])) && l == TopicLink(sim, ql, ts[1..][i]);
      assert ts[1..][i] == ts[i + 1];
    }
  }

  /** Every qualifying topic contributes its link to the scan. */
  lemma {:induction false} RelevantComplete(sim: Similarity, ql: string, qk: set<string>, ts: seq<Topic>, i: int)
    requires 0 <= i < |ts| && Qualifies(Measure(sim, ql, qk, ts[i]))
    ensures TopicLink(sim, ql, ts[i]) in RelevantLinks(sim, ql, qk, ts)
    decreases |ts|
  {
    if i > 0 {
      assert ts[1..][i - 1] == ts[i];
      RelevantComplete(sim, ql, qk, ts[1..], i - 1);
    }
  }

  /** Every returned link is the link of a qualifying topic of the grouping.
      Its url is the url of the first post, in corpus order, carrying that
      topic's key, and its text starts with that post's lower-cased title
      cut to 100 characters. */
  lemma MatchLinksFromTopics(sim: Similarity, posts: seq<Post>, question: string, l: Link)
    requires l in Match(sim, Some(posts), question)
    ensures exists i :: (
      && 0 <= i < |Group(posts)|
      && Qualifies(Measure(sim, Lower(question), Tokens(Lower(question)), Group(posts)[i]))
      && l == TopicLink(sim, Lower(question), Group(posts)[i])
      && FirstIndex(posts, Group(posts)[i].key) < |posts|
      && l.url == posts[FirstIndex(posts, Group(posts)[i].key)].url
      && Truncate(KeyOf(posts[FirstIndex(posts, Group(posts)[i].key)]), TextLimit) <= l.text)
  {
    var ql := Lower(question);
    var ts := Group(posts);
    var all := RelevantLinks(sim, ql, Tokens(ql), ts);
    assert l in all;
    RelevantSound(sim, ql, Tokens(ql), ts, l);
    var i :| 0 <= i < |ts| && Qualifies(Measure(sim, ql, Tokens(ql), ts[i])) && l == TopicLink(sim, ql, ts[i]);
    TopicUrlIsFirstPosts(posts, i);
  }

  /** The cap: the result is the first (at most three) qualifying topics'
      links in topic order. */
  lemma MatchCap(sim: Similarity, posts: seq<Post>, question: string)
    ensures var ql := Lower(question);
      var r := Match(sim, Some(posts), question);
      && |r| <= MaxLinks
      && r <= RelevantLinks(sim, ql, Tokens(ql), Group(posts))
  {
  }

  /** When fewer than three links come back, every qualifying topic is
      among them. */
  lemma MatchBelowCap(sim: Similarity, posts: seq<Post>, question: string, i: int)
    requires |Match(sim, Some(posts), question)| < MaxLinks
    requires 0 <= i < |Group(posts)|
    requires Qualifies(Measure(sim, Lower(question), Tokens(Lower(question)), Group(posts)[i]))
    ensures TopicLink(sim, Lower(question), Group(posts)[i]) in Match(sim, Some(posts), question)
  {
    var ql := Lower(question);
    RelevantComplete(sim, ql, Tokens(ql), Group(posts), i);
  }

  /** A keyword counts towards the overlap exactly when it is a `\w+` match
      of both the lower-cased question and the joined content. */
  lemma OverlapWords(question: string, t: Topic, w: string)
    ensures var ql := Lower(question);
      w in Tokens(ql) * Tokens(AllContent(t.posts)) <==> IsToken(ql, w) && IsToken(AllContent(t.posts), w)
  {
    TokensSpec(Lower(question), w);
    TokensSpec(AllContent(t.posts), w);
  }

  /** The hard-coded boost: a question mentioning GA5 (in any case) makes a
      topic qualify as soon as one of its posts mentions ga5, whatever the
      similarity scores. */
  lemma SpecialCodeQualifies(sim: Similarity, question: string, t: Topic, i: int)
    requires Contains(Lower(question), SpecialCode)
    requires 0 <= i < |t.posts| && Contains(Lower(ContentOf(t.posts[i])), SpecialCode)
    ensures Qualifies(Measure(sim, Lower(question), Tokens(Lower(question)), t))
  {
    ContainsInJoin(Contents(t.posts), " ", i, SpecialCode);
  }

  /** Only the first maximal index satisfies `IsFirstMax`. */
  lemma FirstMaxUnique(scores: seq<Score>, i: int, j: int)
    requires IsFirstMax(scores, i) && IsFirstMax(scores, j)
    ensures i == j
  {
    var si, sj := scores[i], scores[j];
    assert si <= sj && sj <= si;
  }

  /** Post `i` of `t` is cited in the link text: it is the first
      best-scoring post, it scores above 70, and the last `/`-piece of its
      url is all digits. */
  ghost predicate CitesPost(sim: Similarity, ql: string, t: Topic, i: int) {
    var scores := PostScores(sim, ql, t.posts);
    && IsFirstMax(scores, i)
    && scores[i] > PostThreshold
    && IsDigits(LastPiece(t.posts[i].url, '/'))
  }

  /** The link of a topic: its url is the topic url; its text starts with the
      key cut to 100 characters; it carries `" (see post #N)"` exactly when
      some post is cited, `N` being the last `/`-piece of that post's url;
      otherwise it is the cut key alone. */
  lemma TopicLinkText(sim: Similarity, ql: string, t: Topic)
    ensures TopicLink(sim, ql, t).url == t.url
    ensures Truncate(t.key, TextLimit) <= TopicLink(sim, ql, t).text
    ensures |TopicLink(sim, ql, t).text| > |Truncate(t.key, TextLimit)| <==> exists i :: CitesPost(sim, ql, t, i)
    ensures (forall i :: !CitesPost(sim, ql, t, i)) ==> TopicLink(sim, ql, t).text == Truncate(t.key, TextLimit)
    ensures forall i :: CitesPost(sim, ql, t, i) ==>
      TopicLink(sim, ql, t).text == Truncate(t.key, TextLimit) + " (see post #" + LastPiece(t.posts[i].url, '/') + ")"
  {
    var scores := PostScores(sim, ql, t.posts);
    var best := BestOf(scores);
    forall i | IsFirstMax(scores, i) && scores[i] > PostThreshold
      ensures best.Best? && best.index == i
    {
      if best.Best? {
        FirstMaxUnique(scores, i, best.index);
      }
    }
    var head := Truncate(t.key, TextLimit);
    var number := PostNumber(best, t.posts);
    var text := LinkText(t.key, number);
    assert text == TopicLink(sim, ql, t).text;
    if number.Some? {
      assert text == head + text[|head|..];
      assert text == head + " (see post #" + number.value + ")";
      assert CitesPost(sim, ql, t, best.index);
    } else {
      assert text == head;
    }
  }
}

=== FILE: scenarios.dfy ===
/** Concrete scenarios of the matcher on small corpora. The similarity
    primitive stays abstract: each scenario states the scores it relies on. */
module Scenarios {
  import opened Wrappers
  import opened Text
  import opened Forum
  import opened Matcher
  import opened MatcherProperties

  /** Titles "Week 1" and "week 1" fold to one topic, which keeps both posts
      in corpus order and takes the first post's url. */
  lemma WeekOneTitlesShareTopic(c1: Option<string>, c2: Option<string>, u1: string, u2: string)
    ensures var ps := [Post(Some("Week 1"), c1, u1), Post(Some("week 1"), c2, u2)];
      && |Group(ps)| == 1
      && Group(ps)[0] == Topic("week 1", u1, ps)
  {
    var p1 := Post(Some("Week 1"), c1, u1);
    var p2 := Post(Some("week 1"), c2, u2);
    assert KeyOf(p1) == "week 1" by {
      assert Lower("Week 1")[0] == 'w';
      LowerOfLower("week 1");
    }
    assert KeyOf(p2) == "week 1" by {
      LowerOfLower("week 1");
    }
    var ps := [p1, p2];
    assert ps[..1] == [p1];
    assert [p1][..0] == [];
    assert Group([p1]) == [Topic("week 1", u1, [p1])];
  }

  /** A corpus whose posts all carry the question as their title, up to
      case, forms one topic, and that topic is always returned, provided the
      similarity primitive scores a non-empty string against itself at 100. */
  lemma ExactTitleIsIncluded(sim: Similarity, ps: seq<Post>, question: string)
    requires forall s :: |s| > 0 ==> sim(s, s) == 100
    requires |ps| > 0 && |Lower(question)| > 0
    requires forall j :: 0 <= j < |ps| ==> KeyOf(ps[j]) == Lower(question)
    ensures Match(sim, Some(ps), question) == [TopicLink(sim, Lower(question), Topic(Lower(question), ps[0].url, ps))]
  {
    var ql := Lower(question);
    var t := Topic(ql, ps[0].url, ps);
    OneKeyOneTopic(ps, ql);
    assert Measure(sim, ql, Tokens(ql), t).titleScore == 100;
    assert RelevantLinks(sim, ql, Tokens(ql), [t]) == [TopicLink(sim, ql, t)];
  }

  const GptTopicPath := "https://discourse.onlinedegree.iitm.ac.in/t/slug/10"
  const GptUrl := GptTopicPath + "/" + "3"
  const GptQuestion := "which model for GA5?"
  const GptPost := Post(Some("Using GPT for GA5"), Some("Use gpt-3.5-turbo-0125 for this assignment"), GptUrl)
  const GptTopic := Topic("using gpt for ga5", GptUrl, [GptPost])

  lemma LowerGA5()
    ensures Lower("GA5") == "ga5"
  {
  }

  lemma LowerQuestion()
    ensures Lower(GptQuestion) == "which model for ga5?"
  {
  }

  lemma LowerTitle()
    ensures KeyOf(GptPost) == "using gpt for ga5"
  {
  }

  lemma GptLowerCase()
    ensures Lower(GptQuestion) == "which model for ga5?"
    ensures KeyOf(GptPost) == "using gpt for ga5"
  {
  }

  /** The one-post corpus groups into the one topic. */
  lemma GptGroup()
    ensures Group([GptPost]) == [GptTopic]
  {
    GptLowerCase();
    assert [GptPost][..0] == [];
  }

  /** The topic qualifies through the GA5 boost alone. */
  lemma GptQualifies(sim: Similarity)
    ensures Qualifies(Measure(sim, Lower(GptQuestion), Tokens(Lower(GptQuestion)), GptTopic))
  {
    GptLowerCase();
    var ql := "which model for ga5?";
    var key := "using gpt for ga5";
    assert OccursAt(ql, SpecialCode, 16);
    ContainsSpec(ql, SpecialCode);
    assert OccursAt(key, SpecialCode, 14);
    ContainsSpec(key, SpecialCode);
  }

  /** The one post is the best post. */
  lemma GptBest(sim: Similarity, ql: string)
    requires sim(ql, Lower(ContentOf(GptPost))) > 0
    ensures BestOf(PostScores(sim, ql, GptTopic.posts)) == Best(0, sim(ql, Lower(ContentOf(GptPost))))
  {
  }

  /** A best score above 70 at a url ending in "/3" cites post #3. */
  lemma GptNumber(score: Score)
    requires score > PostThreshold
    ensures PostNumber(Best(0, score), GptTopic.posts) == Some("3")
  {
    LastPieceAfterSep(GptTopicPath, "3", '/');
  }

  /** The best post is cited as post #3. */
  lemma GptTopicLink(sim: Similarity)
    requires sim("which model for ga5?", Lower(ContentOf(GptPost))) > PostThreshold
    ensures TopicLink(sim, Lower(GptQuestion), GptTopic) == Link(GptUrl, "using gpt for ga5" + " (see post #" + "3" + ")")
  {
    LowerQuestion();
    var ql := "which model for ga5?";
    var score := sim(ql, Lower(ContentOf(GptPost)));
    GptBest(sim, ql);
    var b := BestOf(PostScores(sim, ql, GptTopic.posts));
    assert b == Best(0, score);
    GptNumber(score);
    var n := PostNumber(b, GptTopic.posts);
    assert n == Some("3");
    var key := "using gpt for ga5";
    assert Truncate(key, TextLimit) == key;
    var text := LinkText(key, n);
    assert text == key + " (see post #" + "3" + ")";
    assert TopicLink(sim, ql, GptTopic) == Link(GptUrl, text);
  }

  /** The GA5 scenario: the question "which model for GA5?" against a topic
      "Using GPT for GA5" whose one post, at a url ending in "/3", scores
      above 70 yields one link to the topic, whose text is the lower-cased
      title followed by " (see post #3)". */
  lemma GptForGa5(sim: Similarity)
    requires sim("which model for ga5?", Lower(ContentOf(GptPost))) > PostThreshold
    ensures Match(sim, Some([GptPost]), GptQuestion) == [Link(GptUrl, "using gpt for ga5" + " (see post #" + "3" + ")")]
  {
    GptGroup();
    GptQualifies(sim);
    GptTopicLink(sim);
    var ql := Lower(GptQuestion);
    assert RelevantLinks(sim, ql, Tokens(ql), [GptTopic]) == [TopicLink(sim, ql, GptTopic)];
  }

  /** A best post whose url ends in a non-numeric piece is never cited, even
      at a score of 90: the text is the cut key alone. */
  lemma NonNumericPieceNotCited(sim: Similarity, ql: string, title: string, content: string)
    requires sim(ql, Lower(content)) == 90
    ensures var p := Post(Some(title), Some(content), "https://forum/t/slug" + "/" + "abc");
      TopicLink(sim, ql, Topic(Lower(title), p.url, [p])).text == Truncate(Lower(title), TextLimit)
  {
    LastPieceAfterSep("https://forum/t/slug", "abc", '/');
    assert !('0' <= "abc"[0] <= '9');
  }
}

=== FILE: text.dfy ===
/** The string primitives the matcher relies on, restricted to ASCII:
    `str.lower`, the `\w+` tokeniser, substring containment (`in`),
    `str.split`/`str.join`, `str.isdigit` and slicing `s[:n]`. */
module Text {

  // ---------------------------------------------------------------------
  // Case folding
  // ---------------------------------------------------------------------

  predicate IsUpper(c: char) {
    'A' <= c <= 'Z'
  }

  /** ASCII lower-casing of one character. */
  function LowerChar(c: char): (d: char)
    ensures !IsUpper(d)
    ensures !IsUpper(c) ==> d == c
    ensures IsUpper(c) ==> 'a' <= d <= 'z' && d as int == c as int + 32
  {
    if IsUpper(c) then (c as int - 'A' as int + 'a' as int) as char else c
  }

  /** `s.lower()`, ASCII only. */
  function Lower(s: string): (r: string)
    ensures |r| == |s|
    ensures forall i :: 0 <= i < |r| ==> !IsUpper(r[i])
    ensures forall i :: 0 <= i < |s| && !IsUpper(s[i]) ==> r[i] == s[i]
    ensures forall i :: 0 <= i < |s| && IsUpper(s[i]) ==> r[i] as int == s[i] as int + 32
  {
    seq(|s|, i requires 0 <= i < |s| => LowerChar(s[i]))
  }

  /** Two characters agree up to ASCII case: they are equal, or one is an
      upper-case letter and the other its lower-case partner, 32 code points
      higher. */
  predicate SameIgnoringCase(c: char, d: char) {
    || c == d
    || (IsUpper(c) && d as int == c as int + 32)
    || (IsUpper(d) && c as int == d as int + 32)
  }

  /** Lower-casing identifies exactly the strings that agree up to ASCII
      case, position by position. */
  lemma LowerEqual(a: string, b: string)
    ensures Lower(a) == Lower(b) <==>
      |a| == |b| && forall i :: 0 <= i < |a| ==> SameIgnoringCase(a[i], b[i])
  {
    if Lower(a) == Lower(b) {
      forall i | 0 <= i < |a|
        ensures SameIgnoringCase(a[i], b[i])
      {
        assert Lower(a)[i] == Lower(b)[i];
      }
    }
    if |a| == |b| && forall i :: 0 <= i < |a| ==> SameIgnoringCase(a[i], b[i]) {
      forall i | 0 <= i < |a|
        ensures Lower(a)[i] == Lower(b)[i]
      {
        assert SameIgnoringCase(a[i], b[i]);
      }
    }
  }

  /** A string with no upper-case letter is its own lower-case form. */
  lemma LowerOfLower(s: string)
    requires forall i :: 0 <= i < |s| ==> !IsUpper(s[i])
    ensures Lower(s) == s
  {
  }

  /** Lower-casing works piecewise. */
  lemma LowerConcat(a: string, b: string)
    ensures Lower(a + b) == Lower(a) + Lower(b)
  {
  }

  // ---------------------------------------------------------------------
  // The `\w+` tokeniser
  // ---------------------------------------------------------------------

  /** A `\w` character: ASCII letter, digit or underscore. */
  predicate IsWordChar(c: char) {
    ('a' <= c <= 'z') || ('A' <= c <= 'Z') || ('0' <= c <= '9') || c == '_'
  }

  /** `s[a..b]` is a maximal run of word characters: the text `re.findall(r'\w+', s)`
      reports as one match. */
  predicate IsRun(s: string, a: int, b: int) {
    && 0 <= a < b <= |s|
    && (forall k :: a <= k < b ==> IsWordChar(s[k]))
    && (a == 0 || !IsWordChar(s[a - 1]))
    && (b == |s| || !IsWordChar(s[b]))
  }

  /** `t` is one of the matches of `\w+` in `s`. */
  ghost predicate IsToken(s: string, t: string) {
    exists a, b :: IsRun(s, a, b) && t == s[a..b]
  }

  /** The end of the run of word characters starting at `i`. */
  function RunEnd(s: string, i: nat): (j: nat)
    requires i <= |s|
    ensures i <= j <= |s|
    ensures forall k :: i <= k < j ==> IsWordChar(s[k])
    ensures j == |s| || !IsWordChar(s[j])
    decreases |s| - i
  {
    if i == |s| || !IsWordChar(s[i]) then i else RunEnd(s, i + 1)
  }

  /** The matches of `\w+` in `s` from index `i` on, scanning left to right. */
  function TokensFrom(s: string, i: nat): set<string>
    requires i <= |s|
    decreases |s| - i
  {
    if i == |s| then {}
    else if !IsWordChar(s[i]) then TokensFrom(s, i + 1)
    else
      var j := RunEnd(s, i);
      {s[i..j]} + TokensFrom(s, j)
  }

  /** `set(re.findall(r'\w+', s))`. */
  function Tokens(s: string): set<string> {
    TokensFrom(s, 0)
  }

  /** Index `i` does not sit in the middle of a run. */
  predicate AtBoundary(s: string, i: nat)
    requires i <= |s|
  {
    i == 0 || i == |s| || !IsWordChar(s[i - 1]) || !IsWordChar(s[i])
  }

  lemma {:induction false} TokensFromSpec(s: string, i: nat)
    requires i <= |s| && AtBoundary(s, i)
    ensures forall t :: t in TokensFrom(s, i) <==> exists a, b :: i <= a && IsRun(s, a, b) && t == s[a..b]
    decreases |s| - i
  {
    if i == |s| {
    } else if !IsWordChar(s[i]) {
      TokensFromSpec(s, i + 1);
      forall a, b | i <= a && IsRun(s, a, b)
        ensures i + 1 <= a
      {
      }
    } else {
      var j := RunEnd(s, i);
      assert IsRun(s, i, j);
      TokensFromSpec(s, j);
      forall a, b | i <= a && IsRun(s, a, b)
        ensures (a == i && b == j) || j <= a
      {
      }
    }
  }

  /** The tokeniser reports exactly the maximal word-character runs of `s`. */
  lemma TokensSpec(s: string, t: string)
    ensures t in Tokens(s) <==> IsToken(s, t)
  {
    TokensFromSpec(s, 0);
  }

  /** Every token is a non-empty string of word characters that occurs in `s`. */
  lemma TokenShape(s: string, t: string)
    requires t in Tokens(s)
    ensures |t| > 0
    ensures forall k :: 0 <= k < |t| ==> IsWordChar(t[k])
    ensures Contains(s, t)
  {
    TokensSpec(s, t);
    var a, b :| IsRun(s, a, b) && t == s[a..b];
    assert OccursAt(s, t, a);
    ContainsSpec(s, t);
  }

  // ---------------------------------------------------------------------
  // Substring containment
  // ---------------------------------------------------------------------

  /** `pat` occurs in `s` starting at index `i`. */
  ghost predicate OccursAt(s: string, pat: string, i: int) {
    0 <= i && i + |pat| <= |s| && s[i..i + |pat|] == pat
  }

  /** Whether `pat` occurs in `s` at index `i` or later. */
  function ContainsFrom(s: string, pat: string, i: nat): bool
    decreases |s| - i
  {
    if i + |pat| > |s| then false
    else if s[i..i + |pat|] == pat then true
    else ContainsFrom(s, pat, i + 1)
  }

  /** Python's `pat in s` for strings. */
  function Contains(s: string, pat: string): bool {
    ContainsFrom(s, pat, 0)
  }

  lemma {:induction false} ContainsFromSpec(s: string, pat: string, i: nat)
    ensures ContainsFrom(s, pat, i) <==> exists j :: i <= j && OccursAt(s, pat, j)
    decreases |s| - i
  {
    if i + |pat| > |s| {
    } else if s[i..i + |pat|] == pat {
      assert OccursAt(s, pat, i);
    } else {
      ContainsFromSpec(s, pat, i + 1);
      if j :| i <= j && OccursAt(s, pat, j) {
        assert j != i;
        assert i + 1 <= j && OccursAt(s, pat, j);
      }
    }
  }

  /** Containment holds exactly when the pattern occurs at some index. */
  lemma ContainsSpec(s: string, pat: string)
    ensures Contains(s, pat) <==> exists i :: OccursAt(s, pat, i)
  {
    ContainsFromSpec(s, pat, 0);
  }

  /** Containment survives appending text on either side. */
  lemma ContainsInConcat(a: string, b: string, pat: string)
    requires Contains(a, pat) || Contains(b, pat)
    ensures Contains(a + b, pat)
  {
    ContainsSpec(a, pat);
    ContainsSpec(b, pat);
    ContainsSpec(a + b, pat);
    if Contains(a, pat) {
      var i :| OccursAt(a, pat, i);
      assert (a + b)[i..i + |pat|] == a[i..i + |pat|];
      assert OccursAt(a + b, pat, i);
    } else {
      var i :| OccursAt(b, pat, i);
      assert (a + b)[|a| + i..|a| + i + |pat|] == b[i..i + |pat|];
      assert OccursAt(a + b, pat, |a| + i);
    }
  }

  // ---------------------------------------------------------------------
  // Joining and splitting
  // ---------------------------------------------------------------------

  /** `sep.join(parts)`. */
  function Join(parts: seq<string>, sep: string): string
  {
    if |parts| == 0 then ""
    else if |parts| == 1 then parts[0]
    else parts[0] + sep + Join(parts[1..], sep)
  }

  /** A pattern found in one part is found in the joined text. */
  lemma {:induction false} ContainsInJoin(parts: seq<string>, sep: string, i: int, pat: string)
    requires 0 <= i < |parts|
    requires Contains(parts[i], pat)
    ensures Contains(Join(parts, sep), pat)
    decreases |parts|
  {
    if |parts| == 1 {
    } else if i == 0 {
      ContainsInConcat(parts[0], sep + Join(parts[1..], sep), pat);
      assert parts[0] + sep + Join(parts[1..], sep) == parts[0] + (sep + Join(parts[1..], sep));
    } else {
      ContainsInJoin(parts[1..], sep, i - 1, pat);
      ContainsInConcat(parts[0] + sep, Join(parts[1..], sep), pat);
    }
  }

  /** Gluing a character onto the first part glues it onto the joined text. */
  lemma JoinConsFirst(c: char, parts: seq<string>, sep: string)
    requires |parts| > 0
    ensures Join([[c] + parts[0]] + parts[1..], sep) == [c] + Join(parts, sep)
  {
  }

  /** `s.split(sep)` for a one-character separator: the pieces between
      separators, including empty ones, and always at least one piece. */
  function Split(s: string, sep: char): (parts: seq<string>)
    ensures |parts| >= 1
    ensures forall i :: 0 <= i < |parts| ==> sep !in parts[i]
    ensures Join(parts, [sep]) == s
  {
    if |s| == 0 then [""]
    else
      var rest := Split(s[1..], sep);
      if s[0] == sep then
        assert Join([""] + rest, [sep]) == [sep] + Join(rest, [sep]) by {
          assert ([""] + rest)[1..] == rest;
        }
        [""] + rest
      else
        JoinConsFirst(s[0], rest, [sep]);
        [[s[0]] + rest[0]] + rest[1..]
  }

  /** A leading non-separator joins the first piece: the piece count stays,
      and the last piece stays unless it was the only one. */
  lemma SplitKeepsLast(s: string, sep: char)
    requires |s| > 0 && s[0] != sep
    ensures var rest := Split(s[1..], sep); var parts := Split(s, sep);
      && |parts| == |rest|
      && (|rest| > 1 ==> parts[|parts| - 1] == rest[|rest| - 1])
      && (|rest| == 1 ==> parts[|parts| - 1] == s)
  {
  }

  /** The last piece of `s.split(sep)` is the longest suffix of `s` free of
      `sep`: it is the whole string when no separator occurs, and otherwise it
      starts right after the last separator. */
  lemma {:induction false} LastPieceSpec(s: string, sep: char)
    ensures var parts := Split(s, sep); var r := parts[|parts| - 1];
      && |r| <= |s| && r == s[|s| - |r|..]
      && (|parts| == 1 <==> |r| == |s|)
      && (|r| < |s| ==> s[|s| - |r| - 1] == sep)
    decreases |s|
  {
    if |s| > 0 {
      var rest := Split(s[1..], sep);
      LastPieceSpec(s[1..], sep);
      var r := rest[|rest| - 1];
      assert s[1..][|s[1..]| - |r|..] == s[|s| - |r|..];
      if s[0] == sep {
        assert Split(s, sep) == [""] + rest;
      } else {
        SplitKeepsLast(s, sep);
      }
    }
  }

  /** `s.split(sep)[-1]`. */
  function LastPiece(s: string, sep: char): (r: string)
    ensures sep !in r
    ensures |r| <= |s| && r == s[|s| - |r|..]
    ensures forall k :: |s| - |r| <= k < |s| ==> s[k] != sep
    ensures |r| < |s| ==> s[|s| - |r| - 1] == sep
  {
    LastPieceSpec(s, sep);
    var parts := Split(s, sep);
    var r := parts[|parts| - 1];
    forall k | |s| - |r| <= k < |s|
      ensures s[k] != sep
    {
      assert s[k] == r[k - (|s| - |r|)];
    }
    r
  }

  /** The last piece of `a + sep + b` is `b` when `b` holds no separator. */
  lemma LastPieceAfterSep(a: string, b: string, sep: char)
    requires sep !in b
    ensures LastPiece(a + [sep] + b, sep) == b
  {
    var s := a + [sep] + b;
    var r := LastPiece(s, sep);
    assert s[|a|] == sep;
    forall k | |a| + 1 <= k < |s|
      ensures s[k] != sep
    {
      assert s[k] == b[k - |a| - 1];
    }
    assert |r| == |b|;
    assert s[|a| + 1..] == b;
  }

  // ---------------------------------------------------------------------
  // Digits and truncation
  // ---------------------------------------------------------------------

  /** `s.isdigit()`, ASCII only: non-empty and made of the digits 0-9. */
  predicate IsDigits(s: string) {
    |s| > 0 && forall i :: 0 <= i < |s| ==> '0' <= s[i] <= '9'
  }

  /** `s[:n]`: the first `n` elements, or all of `s` when it is shorter. */
  function Truncate<T>(s: seq<T>, n: nat): (r: seq<T>)
    ensures |r| == if |s| < n then |s| else n
    ensures r <= s
  {
    if |s| <= n then s else s[..n]
  }
}

=== FILE: wrappers.dfy ===
/** The Some/None datatype used for values the source reads with a default
    (`dict.get`) or may not find (a missing corpus, an unknown key). */
module Wrappers {

  datatype Option<+T> = None | Some(value: T) {

    /** Returns the value held in Some, or the given default when None. */
    function GetOr(default: T): T {
      match this
      case Some(v) => v
      case None => default
    }
  }
}
